=== FILE: README.md ===
# Tech Store pattern layer, in Dafny

This project models the design-pattern layer of a small web shop. That layer has four parts:

- **Factory Method.** `Product.create_product` builds a phone or a computer from a category tag.
- **Builder.** `OrderBuilder` assembles an order in a one-slot builder and saves it.
- **Observer and Singleton.** `OrderSubject` notifies `EmailNotifier` and `SMSNotifier`, which log through the process-wide `Logger`. The `SingletonType` metaclass registry hands out the `Logger`.
- **Facade.** `RegistrationFacade.register_user` validates an email, inserts a user and sends a confirmation.

Files:

- `basics.dfy`: `Option`, `Result` and `Outcome`, plus the decimal rendering that `f"{order.id}"` applies to an id.
- `models.dfy` (`app/models/__init__.py`):
  - the `Product` variants, the factory and the column defaults;
  - `User`, and the in-memory `Order` object;
  - the relational store, as a `Database` class with maps and a fresh-id counter;
  - catalogue seeding.
- `utils.dfy` (`app/utils/__init__.py`):
  - standard output, as an appended list of lines;
  - the `Logger` and the singleton registry;
  - observers, which are objects compared by identity, as Python's `list.remove` compares them;
  - the order subject.
- `builder.dfy` (`app/builder/__init__.py`): the `OrderBuilder` class.
- `facade.dfy` (`app/facade/__init__.py`): `RegisterUser`, with the email validator as a function parameter and sending recorded in an `Outbox`.

State that the source changes in place is held in classes whose methods state the whole new state. The methods named `…Scenario` replay, on fresh objects, the repository's test cases plus two application-level cases (a fresh builder holds no order; seeding twice is seeding once). Each scenario's contract gives the outcome the code produces, and that is proved. For `Facade.EmptyPasswordScenario` this outcome is the opposite of what the repository's test expects; see the empty-password item below.

Some behaviour of the code that a reader might not expect, each part of the model:

- **Detaching an observer that is not attached raises.** `detach` is `list.remove` (`app/utils/__init__.py:36`), which raises `ValueError` for an absent item. `Detach` returns `Fail(NotAttached)` and leaves the list as it was.
- **A missing user or product fails in `create_order`.** `create_order` reads `user.id` before `product.id` (`app/builder/__init__.py:8`), so passing None raises there, before any `save`. The tests at `tests/test_patterns.py:158-180` expect an exception from `create_order(...).save()`, and this is where it comes from. No order is stored.
- **Order references are not checked.** The order's `user_id` and `product_id` are nullable foreign-key columns (`app/models/__init__.py:47-48`), and the SQLite engine (`app/models/__init__.py:54`) is created without turning foreign-key enforcement on. The store therefore accepts any user and product ids.
- **A factory keyword of the other variant fails.** `create_product` passes its keywords straight to `Phone` or `Computer` (`app/models/__init__.py:18`, `:20`). A phone has no `cpu` column and a computer no `sim_count` column, so the mapped constructor raises `TypeError` for that keyword whatever its value, `None` included. The model tells a keyword that was not passed (`Absent`) from one passed as `None` (`Passed(None)`).
- **Saving an order again rewrites its row.** `save` adds the held order and commits (`app/builder/__init__.py:16-22`). For an order that already has an id, this writes its current status to the existing row rather than inserting a new one.
- **A notifier logs a fixed text.** The two notifiers log `Email: Статус замовлення <id> змінено на <status>` and `SMS: …` (`app/utils/__init__.py:20`, `:25`). The tests at `tests/test_patterns.py:84-85` and `:98` match that text literally, so the model carries it character for character.
- **An empty password is accepted.** `register_user` checks only the email (`app/facade/__init__.py:16-20`), and the password column only forbids NULL (`app/models/__init__.py:40`). The test at `tests/test_patterns.py:130-134` expects a refusal that the code does not make.

## Model

| member | source | states |
|---|---|---|
| `Basics.ShowNat` | app/utils/__init__.py:20 | An id is printed as a non-empty string of digits with no leading zero. |
| `Basics.ReadShowNat` | app/utils/__init__.py:20 | Reading the printed digits back gives the id: printing is invertible. |
| `Basics.ShowNatInjective` | app/utils/__init__.py:20 | Two ids print the same text exactly when they are equal. |
| `Basics.ShowId` | app/utils/__init__.py:25 | An id that is still None prints as "None". A set id prints as a non-empty run of digits, with no leading zero, that reads back to it. |
| `Models.CreateProduct` | app/models/__init__.py:15-22 | "phone" gives a Phone, and "computer" gives a Computer. The name and price are exactly the arguments, the category field is the passed keyword's value (None when not passed), and the type tag equals the requested tag. A keyword of the other variant fails whenever it is passed, even as None. Any other tag fails with the unknown-type error, never a fallback variant. |
| `Models.CreateProductRoundTrip` | app/models/__init__.py:15-34 | Every product is rebuilt exactly by the factory from its own tag, name, price and category field. |
| `Models.WithColumnDefaults` | app/models/__init__.py:24-34 | A stored phone without a SIM count gets 1. Every value that was given is kept, including the variant, the tag, the name, the price and the CPU. |
| `Models.WithColumnDefaultsIdempotent` | app/models/__init__.py:27 | Applying the column defaults again changes nothing. |
| `Models.Order.constructor` | app/builder/__init__.py:8 | A new order has no id yet and carries the given user id, product id and status. |
| `Models.Database.constructor` | app/models/__init__.py:53-55 | A new store is empty and satisfies the store invariant. |
| `Models.Database.UsersUnique` | app/models/__init__.py:38-39 | No two stored users share an email or an id. |
| `Models.Database.InsertUser` | app/models/__init__.py:36-41 | A new email adds exactly one user, with the given fields and a fresh id. An email already present fails with an integrity error and leaves the store unchanged. |
| `Models.Database.InsertProduct` | app/models/__init__.py:7-13 | A product is stored under a fresh id with its column defaults filled. The other tables are unchanged. |
| `Models.Database.InsertOrder` | app/models/__init__.py:44-49 | An order row is stored under a fresh id with the given user and product ids. An order stored without a status gets "created"; a given status is kept. Users and products are unchanged. |
| `Models.Database.UpdateOrder` | app/builder/__init__.py:18-20 | A persisted order's row is overwritten. A missing row fails and leaves the store unchanged. |
| `Models.Database.SeedProducts` | app/models/__init__.py:57-65 | On an empty catalogue, it stores exactly iPhone 15 and MacBook Air. On a non-empty one, it changes nothing. |
| `Models.SeedPhone` | app/models/__init__.py:60 | The seeded phone is "iPhone 15" at 35000 with 2 SIMs. |
| `Models.SeedComputer` | app/models/__init__.py:61 | The seeded computer is "MacBook Air" at 50000 with an M2 CPU. |
| `Models.SeedTwiceScenario` | app/models/__init__.py:57-65 | Seeding twice leaves the same two-product catalogue as seeding once. |
| `Models.DuplicateUserScenario` | tests/test_patterns.py:137-153 | A second user with an existing email fails, and the user table stays as it was. |
| `Utils.LogLine` | app/utils/__init__.py:11-12 | A log line is "[LOG] " followed by exactly the message. |
| `Utils.LogLineInjective` | app/utils/__init__.py:11-12 | Two log lines are equal exactly when their messages are. |
| `Utils.Logger.Log` | app/utils/__init__.py:11-12 | Logging appends exactly one line, "[LOG] " followed by the message, after all earlier output. |
| `Utils.SingletonType.Call` | app/utils/__init__.py:3-8 | The first call for a class creates a fresh instance and records it, adding that single entry. Every later call returns the recorded instance and leaves the registry unchanged. |
| `Utils.Message` | app/utils/__init__.py:18-25 | An Email notifier's line is "Email: Статус замовлення " followed by the id's text, " змінено на " and the status. An SMS notifier's line is the same after "SMS: Статус замовлення ". |
| `Utils.UpdateLines` | app/utils/__init__.py:14-25 | The base observer prints nothing. Each notifier prints exactly one line. |
| `Utils.MessageIdentifiesOrder` | app/utils/__init__.py:18-25 | Two orders whose messages from the same notifier are equal have the same id, whatever their statuses: a notifier line identifies its order. |
| `Utils.Observer.Update` | app/utils/__init__.py:14-25 | Updating appends the observer's lines: none for the base observer, and the Email or SMS line for a notifier. The registry changes at most by gaining the logger. |
| `Utils.NotifyLinesAppend` | app/utils/__init__.py:38-40 | Notifying a concatenated list prints the first part's lines, then the second part's. |
| `Utils.NotifyLinesEmpty` | app/utils/__init__.py:38-40 | Notification prints nothing exactly when every observer is a base observer. This includes the empty list. |
| `Utils.IndexOf` | app/utils/__init__.py:36 | This gives the first position of an attached observer. No earlier entry is that observer. |
| `Utils.RemoveFirst` | app/utils/__init__.py:36 | This removes the entry at the first position of the observer and keeps the rest in order. |
| `Utils.RemoveFirstMultiset` | app/utils/__init__.py:36 | Removal takes out exactly one copy, so duplicates stay attached. |
| `Utils.AttachThenDetach` | app/utils/__init__.py:32-36 | Attaching an observer the list did not hold and then detaching it restores the list. |
| `Utils.DetachDropsItsLines` | app/utils/__init__.py:35-40 | After a detach, notification prints what it printed before minus the detached observer's lines. The other observers' lines keep their order. |
| `Utils.OrderSubject.constructor` | app/utils/__init__.py:29-30 | A new subject has no observers. |
| `Utils.OrderSubject.Attach` | app/utils/__init__.py:32-33 | The observer is appended at the end, and duplicates are kept. |
| `Utils.OrderSubject.Detach` | app/utils/__init__.py:35-36 | An attached observer loses only its first occurrence. An absent one fails and leaves the list as it was. |
| `Utils.OrderSubject.Notify` | app/utils/__init__.py:38-40 | Output grows by the lines of every observer, in attachment order. |
| `Utils.LoggerIdentityScenario` | tests/test_patterns.py:12-15 | Two logger lookups return the identical instance, and the registry holds only that entry. |
| `Utils.LogOrderScenario` | tests/test_patterns.py:269-274 | Two log calls print their two lines in call order. |
| `Utils.NotifyOrderScenario` | tests/test_patterns.py:73-85 | With an email notifier attached before an SMS notifier, the Email line is printed first, then the SMS line. |
| `Utils.DetachScenario` | tests/test_patterns.py:87-98 | Attach, notify, detach and notify print the Email line exactly once. |
| `Utils.SilentNotifyScenario` | tests/test_patterns.py:235-244 | Notifying no observers, or only base observers, prints nothing. |
| `Builder.OrderBuilder.constructor` | app/builder/__init__.py:4-5 | A new builder holds no order. |
| `Builder.OrderBuilder.CreateOrder` | app/builder/__init__.py:7-9 | With both user and product present, the slot holds a fresh unsaved order with their ids and status "created", and the builder is returned. A missing user, checked first, or a missing product fails and leaves the slot as it was. |
| `Builder.OrderBuilder.SetStatus` | app/builder/__init__.py:11-14 | The held order's status is overwritten and its id is kept. With no order it does nothing. It returns the builder. |
| `Builder.OrderBuilder.Save` | app/builder/__init__.py:16-22 | An unsaved order is inserted under a fresh id and returned with that id. A saved one has its row rewritten. An empty slot fails, and so does an order whose row is gone; both leave the store unchanged. Users and products are never touched. |
| `Builder.OrderBuilder.GetOrder` | app/builder/__init__.py:24-25 | This returns the held order and changes nothing. |
| `Builder.FreshBuilderScenario` | app/builder/__init__.py:4-5 | A fresh builder's `get_order` gives none. |
| `Builder.BuildScenario` | tests/test_patterns.py:38-65 | Saving with no status change stores and returns "created". After `set_status(s)`, it stores and returns `s`. The saved order has an id. |
| `Builder.TwoOrdersScenario` | tests/test_patterns.py:213-226 | Two create-and-save rounds on one builder yield distinct ids. |
| `Builder.MissingReferenceScenario` | tests/test_patterns.py:158-180 | A missing user or product fails at creation, and no order is stored. |
| `Builder.SetStatusWithoutOrderScenario` | tests/test_patterns.py:276-283 | `set_status` on an empty builder does not fail, and the builder stays empty. |
| `Facade.Outbox.SendConfirmationEmail` | app/facade/__init__.py:33 | A send records exactly one confirmation with the registrant's email and name. |
| `Facade.RegisterUser` | app/facade/__init__.py:15-34 | A rejected email returns (false, "Invalid email: " + detail) and writes and sends nothing. A known email returns (false, "Email already registered.") and changes nothing. A new email adds exactly one user with the given password and name, records one confirmation, and returns (true, "Registration successful. Confirmation email sent."). |
| `Facade.RegisterTwiceScenario` | tests/test_patterns.py:101-116 | Registering one email twice gives success, then the duplicate refusal. Only the first registration is stored and confirmed. |
| `Facade.InvalidEmailScenario` | tests/test_patterns.py:124-128 | A rejected email yields a failure whose message starts with "Invalid email: ". No user is written and no mail is sent. |
| `Facade.EmptyPasswordScenario` | app/facade/__init__.py:23 | An empty password is accepted and stored as given. |

## Left out

- Output: `print` to standard output is modelled as an appended list of lines.
  - The engine is created with `echo=True` (`app/models/__init__.py:54`), so SQLAlchemy also writes its SQL statements to standard output. Those lines are not in the modelled output, which holds only what the pattern layer prints.
- The order given to `notify`: only its `id` and `status` are modelled, which are all that `update` reads. It is passed as a snapshot of those two values.
- Observer failures: an observer whose `update` raises, which would abort the rest of `notify`, is not modelled. No observer in the source raises.
- The singleton registry: it is keyed by class name and holds `Logger` instances, the only class that uses the metaclass.
- The email grammar: the validator, including its deliverability lookup, is an external library. It enters as a function parameter, and its rejection detail is an opaque string.
- Mail transport: `send_confirmation_email` internals (message text, SMTP and the printed send error) are I/O. A send is recorded as a `Confirmation(email, name)` event.
- `app/controllers/__init__.py` (routes, cookies, templates, order email) and `app/main.py` (startup wiring) are not part of this model.
- Persistence: SQLAlchemy sessions, commits, rollbacks, refreshes, relationships and row deletion are abstracted into the `Database` class.
  - All tables draw ids from one fresh-id counter rather than one per table.
  - `register_user` catches every `IntegrityError` (`app/facade/__init__.py:27`) and answers "Email already registered.". That includes the NOT NULL failures that a None password or name would raise (`app/models/__init__.py:40-41`). The model takes strings for all three arguments, so the email uniqueness conflict is the only integrity error it can meet.
  - Other persistence failures (a lost connection, a locked database file) are not modelled.
- Factory keywords: keywords other than `sim_count` and `cpu` (`id`, `type`, unknown names) are not modelled.
- Builder inputs: the builder takes users and products that have ids, as every caller passes committed rows. A transient object whose id is still None is not modelled.
- `set_status(None)`: not modelled. Statuses are strings, so the order status default applies only when the store is given no status, and the builder always gives one.
- Prices: the float column is carried as an integer, with no arithmetic.
- Concurrency: the source is single-threaded.
- `Utils.OrderSubject.Notify`: states that the registry at most gains the logger. It does not state that the logger is present afterwards when a notifier was attached (`Utils.Observer.Update` states that per call).

=== FILE: basics.dfy ===
/** Shared vocabulary: optional values, results with an error side, and the
    decimal rendering that Python's string formatting applies to an integer id. */
module Basics {

  datatype Option<+T> = None | Some(value: T)

  datatype Result<+T, +E> = Ok(value: T) | Err(error: E)

  /** Success or a failure that carries no value (a Python call that returns
      None or raises). */
  datatype Outcome<+E> = Pass | Fail(error: E)

  predicate IsDigits(s: string) {
    forall i :: 0 <= i < |s| ==> '0' <= s[i] <= '9'
  }

  function DigitChar(d: nat): (c: char)
    requires d < 10
    ensures c as int == '0' as int + d
  {
    ('0' as int + d) as char
  }

  /** The decimal text of `n`, as `str(n)` gives it: digits only, no leading zero. */
  function ShowNat(n: nat): (s: string)
    ensures |s| >= 1 && IsDigits(s)
    ensures |s| > 1 ==> s[0] != '0'
    decreases n
  {
    if n < 10 then [DigitChar(n)] else ShowNat(n / 10) + [DigitChar(n % 10)]
  }

  /** The value of a string of decimal digits; the inverse of ShowNat. */
  function ReadNat(s: string): (n: nat)
    requires IsDigits(s)
    decreases |s|
  {
    if s == [] then 0 else ReadNat(s[..|s| - 1]) * 10 + (s[|s| - 1] as int - '0' as int)
  }

  lemma {:induction false} ReadShowNat(n: nat)
    ensures ReadNat(ShowNat(n)) == n
    decreases n
  {
    if n >= 10 {
      var s := ShowNat(n);
      assert s[..|s| - 1] == ShowNat(n / 10);
      ReadShowNat(n / 10);
    }
  }

  /** Distinct numbers print differently, so a printed id identifies its number. */
  lemma ShowNatInjective(a: nat, b: nat)
    ensures ShowNat(a) == ShowNat(b) <==> a == b
  {
    ReadShowNat(a);
    ReadShowNat(b);
  }

  /** The text `f"{x}"` gives for an integer attribute that may be None. */
  function ShowId(id: Option<nat>): (s: string)
    ensures id.None? ==> s == "None"
    ensures id.Some? ==> |s| >= 1 && IsDigits(s) && ReadNat(s) == id.value
    ensures id.Some? ==> (|s| > 1 ==> s[0] != '0')
  {
    match id
    case None => "None"
    case Some(n) => ReadShowNat(n); ShowNat(n)
  }
}

=== FILE: builder.dfy ===
/** The order builder: one slot holding the order being assembled, filled by
    `CreateOrder`, adjusted by `SetStatus`, and written to the store by `Save`. */
module Builder {
  import opened Basics
  import opened Models

  datatype BuilderError =
    | MissingUser      // `user.id` on None raises AttributeError
    | MissingProduct   // `product.id` on None raises AttributeError
    | NothingToSave    // the session refuses to add None
    | Store(error: StoreError)

  class OrderBuilder {
    var order: Order?

    constructor ()
      ensures order == null
    {
      order := null;
    }

    /** Start a new order for `user` and `product` with status "created",
        replacing whatever order the slot held. The user's id is read first,
        so a missing user fails before the product is looked at; on failure
        the slot keeps its order. */
    method CreateOrder(user: Option<User>, product: Option<ProductRow>) returns (r: Result<OrderBuilder, BuilderError>)
      modifies this
      ensures user.None? ==> r == Err(MissingUser) && order == old(order)
      ensures user.Some? && product.None? ==> r == Err(MissingProduct) && order == old(order)
      ensures user.Some? && product.Some? ==>
        && r == Ok(this)
        && order != null && fresh(order)
        && order.id == None
        && order.userId == user.value.id && order.productId == product.value.id
        && order.status == DefaultOrderStatus
    {
      if user.None? {
        return Err(MissingUser);
      }
      if product.None? {
        return Err(MissingProduct);
      }
      order := new Order(user.value.id, product.value.id, DefaultOrderStatus);
      r := Ok(this);
    }

    /** Overwrite the held order's status; without an order this does nothing. */
    method SetStatus(status: string) returns (self: OrderBuilder)
      modifies order
      ensures self == this && order == old(order)
      ensures order != null ==> order.status == status && order.id == old(order.id)
    {
      if order != null {
        order.status := status;
      }
      self := this;
    }

    /** Persist the held order and return it. An order that has no id yet is
        inserted and receives a freshly generated one; an order saved before
        has its row rewritten with its current fields. */
    method Save(db: Database) returns (r: Result<Order, BuilderError>)
      requires db.Valid()
      modifies db, order
      ensures db.Valid()
      ensures order == old(order)
      ensures db.users == old(db.users) && db.products == old(db.products)
      ensures order == null ==> r == Err(NothingToSave) && unchanged(db)
      ensures order != null && old(order.id).None? ==>
        && r == Ok(order)
        && order.id.Some? && order.id.value !in old(db.orders)
        && db.orders == old(db.orders)[order.id.value := old(order.Row())]
        && order.status == old(order.status)
      ensures order != null && old(order.id).Some? && old(order.id.value) in old(db.orders) ==>
        && r == Ok(order)
        && db.orders == old(db.orders)[old(order.id.value) := old(order.Row())]
        && unchanged(order)
      ensures order != null && old(order.id).Some? && old(order.id.value) !in old(db.orders) ==>
        && r == Err(Store(StaleRow))
        && unchanged(db) && unchanged(order)
    {
      if order == null {
        return Err(NothingToSave);
      }
      if order.id.None? {
        var id := db.InsertOrder(order.userId, order.productId, Some(order.status));
        order.id := Some(id);
        // refreshing reloads the stored status, which is the one just written
        order.status := db.orders[id].status;
        return Ok(order);
      }
      var written := db.UpdateOrder(order.id.value, order.Row());
      if written.Fail? {
        return Err(Store(written.error));
      }
      r := Ok(order);
    }

    /** The held order, if any; nothing changes. */
    method GetOrder() returns (current: Order?)
      ensures current == order
    {
      current := order;
    }
  }

  /** A fresh store holding one user and one product, as the order tests set up. */
  method SetUpStore(product: Product) returns (db: Database, user: User, row: ProductRow)
    ensures fresh(db) && db.Valid()
    ensures db.users == map[user.email := user] && db.orders == map[]
    ensures row.id in db.products
  {
    db := new Database();
    var inserted := db.InsertUser("builder@test.com", "123", "Builder");
    user := inserted.value;
    var id := db.InsertProduct(product);
    row := ProductRow(id, db.products[id]);
  }

  /** A fresh builder holds no order. */
  method FreshBuilderScenario() returns (current: Order?)
    ensures current == null
  {
    var builder := new OrderBuilder();
    current := builder.GetOrder();
  }

  /** `create_order(u, p).save()` stores the order with status "created";
      `create_order(u, p).set_status(s).save()` stores it with status `s`. */
  method BuildScenario(product: Product, status: Option<string>) returns (saved: Result<Order, BuilderError>, stored: OrderRow)
    ensures saved.Ok? && saved.value.id.Some?
    ensures stored.status == (if status.Some? then status.value else DefaultOrderStatus)
    ensures saved.value.status == stored.status
  {
    var db, user, row := SetUpStore(product);
    var builder := new OrderBuilder();
    var created := builder.CreateOrder(Some(user), Some(row));
    if status.Some? {
      var self := builder.SetStatus(status.value);
    }
    saved := builder.Save(db);
    stored := db.orders[saved.value.id.value];
  }

  /** Two create-and-save rounds on one builder give two distinct ids. */
  method TwoOrdersScenario(first: Product, second: Product) returns (a: nat, b: nat)
    ensures a != b
  {
    var db, user, row1 := SetUpStore(first);
    var id2 := db.InsertProduct(second);
    var row2 := ProductRow(id2, db.products[id2]);
    var builder := new OrderBuilder();
    var c1 := builder.CreateOrder(Some(user), Some(row1));
    var s1 := builder.Save(db);
    a := s1.value.id.value;
    var c2 := builder.CreateOrder(Some(user), Some(row2));
    var s2 := builder.Save(db);
    b := s2.value.id.value;
  }

  /** An order for a missing user or a missing product is refused when it is
      created, and then nothing can be saved: no order is stored. */
  method MissingReferenceScenario(product: Product, missingUser: bool) returns (created: Result<OrderBuilder, BuilderError>, saved: Result<Order, BuilderError>, orders: map<nat, OrderRow>)
    ensures created == Err(if missingUser then MissingUser else MissingProduct)
    ensures saved == Err(NothingToSave)
    ensures orders == map[]
  {
    var db, user, row := SetUpStore(product);
    var builder := new OrderBuilder();
    if missingUser {
      created := builder.CreateOrder(None, Some(row));
    } else {
      created := builder.CreateOrder(Some(user), None);
    }
    saved := builder.Save(db);
    orders := db.orders;
  }

  /** `set_status` on an empty builder does not fail and leaves it empty. */
  method SetStatusWithoutOrderScenario(status: string) returns (current: Order?)
    ensures current == null
  {
    var builder := new OrderBuilder();
    var self := builder.SetStatus(status);
    current := builder.GetOrder();
  }
}

=== FILE: facade.dfy ===
/** The registration facade: validate the email, insert the user, send the
    confirmation, stopping at the first step that fails. The email grammar
    belongs to an external validator, passed in as a function; sending is
    recorded as an event rather than performed. */
module Facade {
  import opened Models

  /** The external validator's verdict: accepted, or rejected with its reason. */
  datatype Validation = Accepted | Rejected(detail: string)

  type EmailValidator = string -> Validation

  /** A confirmation email handed to the mail transport. */
  datatype Confirmation = Confirmation(email: string, name: string)

  /** The confirmations sent so far, oldest first. */
  class Outbox {
    var sent: seq<Confirmation>

    constructor ()
      ensures sent == []
    {
      sent := [];
    }

    method SendConfirmationEmail(email: string, name: string)
      modifies this
      ensures sent == old(sent) + [Confirmation(email, name)]
    {
      sent := sent + [Confirmation(email, name)];
    }
  }

  const InvalidEmailPrefix := "Invalid email: "
  const AlreadyRegistered := "Email already registered."
  const Registered := "Registration successful. Confirmation email sent."

  /** Register a user. The password is stored as given, without any check. */
  method RegisterUser(validate: EmailValidator, db: Database, outbox: Outbox, email: string, password: string, name: string)
    returns (success: bool, message: string)
    requires db.Valid()
    modifies db, outbox
    ensures db.Valid()
    ensures validate(email).Rejected? ==>
      && !success && message == InvalidEmailPrefix + validate(email).detail
      && unchanged(db) && unchanged(outbox)
    ensures validate(email).Accepted? && email in old(db.users) ==>
      && !success && message == AlreadyRegistered
      && unchanged(db) && unchanged(outbox)
    ensures validate(email).Accepted? && email !in old(db.users) ==>
      && success && message == Registered
      && db.users.Keys == old(db.users.Keys) + {email}
      && (forall e :: e in old(db.users) ==> db.users[e] == old(db.users)[e])
      && db.users[email].password == password && db.users[email].name == name
      && db.products == old(db.products) && db.orders == old(db.orders)
      && outbox.sent == old(outbox.sent) + [Confirmation(email, name)]
  {
    var verdict := validate(email);
    if verdict.Rejected? {
      return false, InvalidEmailPrefix + verdict.detail;
    }
    var inserted := db.InsertUser(email, password, name);
    if inserted.Err? {
      return false, AlreadyRegistered;
    }
    outbox.SendConfirmationEmail(email, name);
    return true, Registered;
  }

  /** Registering one email twice in a row: success, then the duplicate
      refusal; only the first registration is stored and confirmed. */
  method RegisterTwiceScenario(validate: EmailValidator, email: string, password: string, name: string, password2: string, name2: string)
    returns (first: (bool, string), second: (bool, string), stored: User, sent: seq<Confirmation>)
    requires validate(email).Accepted?
    ensures first == (true, Registered) && second == (false, AlreadyRegistered)
    ensures stored.email == email && stored.password == password && stored.name == name
    ensures sent == [Confirmation(email, name)]
  {
    var db := new Database();
    var outbox := new Outbox();
    var ok1, m1 := RegisterUser(validate, db, outbox, email, password, name);
    var ok2, m2 := RegisterUser(validate, db, outbox, email, password2, name2);
    first, second := (ok1, m1), (ok2, m2);
    stored := db.users[email];
    sent := outbox.sent;
  }

  /** An email the validator rejects writes no user and sends nothing. */
  method InvalidEmailScenario(validate: EmailValidator, email: string, password: string, name: string)
    returns (success: bool, message: string, users: map<string, User>, sent: seq<Confirmation>)
    requires validate(email).Rejected?
    ensures !success && |message| >= |InvalidEmailPrefix| && message[..|InvalidEmailPrefix|] == InvalidEmailPrefix
    ensures users == map[] && sent == []
  {
    var db := new Database();
    var outbox := new Outbox();
    success, message := RegisterUser(validate, db, outbox, email, password, name);
    users := db.users;
    sent := outbox.sent;
  }

  /** An empty password is accepted and stored as it is. */
  method EmptyPasswordScenario(validate: EmailValidator, email: string, name: string)
    returns (success: bool, stored: User)
    requires validate(email).Accepted?
    ensures success && stored.password == ""
  {
    var db := new Database();
    var outbox := new Outbox();
    var message;
    success, message := RegisterUser(validate, db, outbox, email, "", name);
    stored := db.users[email];
  }
}

=== FILE: models.dfy ===
/** The persisted entities of the shop (products with their category
    variants, users, orders), the product factory, and the relational store
    the entities live in, abstracted to maps with fresh identifiers. */
module Models {
  import opened Basics

  /** Prices live in a floating-point column; the core never computes with
      them, so they are carried as plain numbers. */
  type Price = int

  /** A product, tagged by category. A phone's SIM count and a computer's CPU
      are nullable columns, hence optional until the store fills defaults. */
  datatype Product =
    | Phone(name: string, price: Price, simCount: Option<int>)
    | Computer(name: string, price: Price, cpu: Option<string>)
  {
    /** The discriminator column, the polymorphic identity of the variant. */
    function Type(): (tag: string) {
      if Phone? then PhoneTag else ComputerTag
    }
  }

  const PhoneTag := "phone"
  const ComputerTag := "computer"

  /** A keyword argument: not passed at all, or passed with a value that may
      itself be None. */
  datatype Keyword<T> = Absent | Passed(value: Option<T>)
  {
    /** The attribute value the keyword sets: None when it was not passed. */
    function Value(): (v: Option<T>)
      ensures Absent? ==> v.None?
      ensures Passed? ==> v == value
    {
      if Passed? then value else None
    }
  }

  /** The category-specific keyword arguments of the factory. */
  datatype Kwargs = Kwargs(simCount: Keyword<int>, cpu: Keyword<string>)

  datatype FactoryError =
    | UnknownProductType             // ValueError('Unknown product type')
    | InvalidKeyword(keyword: string) // TypeError from the mapped constructor

  /** Factory Method: build the variant named by `productType`. A keyword that
      the chosen variant has no column for is rejected by the mapped class's
      constructor; any other tag is rejected without a fallback variant. */
  function CreateProduct(productType: string, name: string, price: Price, kwargs: Kwargs): (r: Result<Product, FactoryError>)
    ensures r.Ok? ==> r.value.Type() == productType && r.value.name == name && r.value.price == price
    ensures productType == PhoneTag && kwargs.cpu.Absent? ==> r.Ok? && r.value.Phone? && r.value.simCount == kwargs.simCount.Value()
    ensures productType == PhoneTag && kwargs.cpu.Passed? ==> r == Err(InvalidKeyword("cpu"))
    ensures productType == ComputerTag && kwargs.simCount.Absent? ==> r.Ok? && r.value.Computer? && r.value.cpu == kwargs.cpu.Value()
    ensures productType == ComputerTag && kwargs.simCount.Passed? ==> r == Err(InvalidKeyword("sim_count"))
    ensures productType != PhoneTag && productType != ComputerTag ==> r == Err(UnknownProductType)
  {
    if productType == PhoneTag then
      if kwargs.cpu.Passed? then Err(InvalidKeyword("cpu"))
      else Ok(Phone(name, price, kwargs.simCount.Value()))
    else if productType == ComputerTag then
      if kwargs.simCount.Passed? then Err(InvalidKeyword("sim_count"))
      else Ok(Computer(name, price, kwargs.cpu.Value()))
    else
      Err(UnknownProductType)
  }

  /** The keyword arguments that give back a product's own category field. */
  function KwargsOf(p: Product): (k: Kwargs) {
    match p
    case Phone(_, _, k) => Kwargs(Passed(k), Absent)
    case Computer(_, _, c) => Kwargs(Absent, Passed(c))
  }

  /** Every product is what the factory builds from its own tag, name, price
      and category field: the tag alone picks the variant. */
  lemma CreateProductRoundTrip(p: Product)
    ensures CreateProduct(p.Type(), p.name, p.price, KwargsOf(p)) == Ok(p)
  {
  }

  const DefaultSimCount := 1
  const DefaultOrderStatus := "created"

  /** The row the store writes for a product: a phone without a SIM count gets
      the column default; every value that was given is kept. */
  function WithColumnDefaults(p: Product): (q: Product)
    ensures q.Type() == p.Type() && q.name == p.name && q.price == p.price
    ensures q.Phone? ==> q.simCount == if p.simCount.Some? then p.simCount else Some(DefaultSimCount)
    ensures q.Computer? ==> q.cpu == p.cpu
  {
    match p
    case Phone(n, pr, k) => Phone(n, pr, if k.Some? then k else Some(DefaultSimCount))
    case Computer(_, _, _) => p
  }

  /** Storing defaults twice is storing them once. */
  lemma WithColumnDefaultsIdempotent(p: Product)
    ensures WithColumnDefaults(WithColumnDefaults(p)) == WithColumnDefaults(p)
  {
  }

  datatype User = User(id: nat, email: string, password: string, name: string)

  /** A product row: its generated identifier and what was stored. */
  datatype ProductRow = ProductRow(id: nat, product: Product)

  /** An order row as persisted. */
  datatype OrderRow = OrderRow(userId: nat, productId: nat, status: string)

  /** An order object in memory: the builder creates it, overwrites its status,
      and the store assigns its id when it is first saved. */
  class Order {
    var id: Option<nat>
    const userId: nat
    const productId: nat
    var status: string

    constructor (userId: nat, productId: nat, status: string)
      ensures id == None && this.userId == userId && this.productId == productId && this.status == status
    {
      this.id := None;
      this.userId := userId;
      this.productId := productId;
      this.status := status;
    }

    function Row(): (row: OrderRow)
      reads this
    {
      OrderRow(userId, productId, status)
    }
  }

  datatype StoreError =
    | IntegrityError  // a unique constraint rejected the row
    | StaleRow        // the row an update or refresh targets is not there

  /** The relational store. Users are keyed by email, which is how the unique
      constraint on `User.email` is kept; every table hands out fresh ids. */
  class Database {
    var users: map<string, User>
    var products: map<nat, Product>
    var orders: map<nat, OrderRow>
    var nextId: nat

    ghost predicate Valid()
      reads this
    {
      && (forall e :: e in users ==> users[e].email == e && 0 < users[e].id < nextId)
      && (forall e, f :: e in users && f in users && e != f ==> users[e].id != users[f].id)
      && (forall k :: k in products ==> 0 < k < nextId)
      && (forall k :: k in orders ==> 0 < k < nextId)
      && (forall k :: k in products && products[k].Phone? ==> products[k].simCount.Some?)
      && 0 < nextId
    }

    constructor ()
      ensures Valid()
      ensures users == map[] && products == map[] && orders == map[]
    {
      users, products, orders := map[], map[], map[];
      nextId := 1;
    }

    /** No two stored users share an email or an id. */
    lemma UsersUnique(u: User, v: User)
      requires Valid()
      requires u in users.Values && v in users.Values
      ensures u.email == v.email <==> u == v
      ensures u.id == v.id <==> u == v
    {
    }

    /** Insert a user and commit. A second user with an email already present
        violates the unique constraint: the insert is rolled back. */
    method InsertUser(email: string, password: string, name: string) returns (r: Result<User, StoreError>)
      requires Valid()
      modifies this
      ensures Valid()
      ensures products == old(products) && orders == old(orders)
      ensures email in old(users) ==> r == Err(IntegrityError) && unchanged(this)
      ensures email !in old(users) ==>
        && r.Ok?
        && r.value.email == email && r.value.password == password && r.value.name == name
        && (forall e :: e in old(users) ==> old(users)[e].id != r.value.id)
        && users == old(users)[email := r.value]
    {
      if email in users {
        return Err(IntegrityError);
      }
      var u := User(nextId, email, password, name);
      users := users[email := u];
      nextId := nextId + 1;
      r := Ok(u);
    }

    /** Insert a product and commit, filling column defaults. */
    method InsertProduct(p: Product) returns (id: nat)
      requires Valid()
      modifies this
      ensures Valid()
      ensures users == old(users) && orders == old(orders)
      ensures id !in old(products) && products == old(products)[id := WithColumnDefaults(p)]
    {
      id := nextId;
      products := products[id := WithColumnDefaults(p)];
      nextId := nextId + 1;
    }

    /** Insert an order and commit; the status column falls back to its default. */
    method InsertOrder(userId: nat, productId: nat, status: Option<string>) returns (id: nat)
      requires Valid()
      modifies this
      ensures Valid()
      ensures users == old(users) && products == old(products)
      ensures id !in old(orders) && id in orders
      ensures orders == old(orders)[id := OrderRow(userId, productId, orders[id].status)]
      ensures status.Some? ==> orders[id].status == status.value
      ensures status.None? ==> orders[id].status == DefaultOrderStatus
    {
      id := nextId;
      orders := orders[id := OrderRow(userId, productId, if status.Some? then status.value else DefaultOrderStatus)];
      nextId := nextId + 1;
    }

    /** Write the current fields of an already persisted order back to its row. */
    method UpdateOrder(id: nat, row: OrderRow) returns (r: Outcome<StoreError>)
      requires Valid()
      modifies this
      ensures Valid()
      ensures users == old(users) && products == old(products) && nextId == old(nextId)
      ensures id in old(orders) ==> r == Pass && orders == old(orders)[id := row]
      ensures id !in old(orders) ==> r == Fail(StaleRow) && unchanged(this)
    {
      if id !in orders {
        return Fail(StaleRow);
      }
      orders := orders[id := row];
      r := Pass;
    }

    /** Seed the catalogue: only when it holds no product at all, add the
        two demo products in one commit. */
    method SeedProducts()
      requires Valid()
      modifies this
      ensures Valid()
      ensures users == old(users) && orders == old(orders)
      ensures |old(products)| != 0 ==> products == old(products) && nextId == old(nextId)
      ensures |old(products)| == 0 ==> products.Values == {SeedPhone(), SeedComputer()} && |products| == 2
    {
      if |products| == 0 {
        var phone := CreateProduct(PhoneTag, "iPhone 15", 35000, Kwargs(Passed(Some(2)), Absent));
        var computer := CreateProduct(ComputerTag, "MacBook Air", 50000, Kwargs(Absent, Passed(Some("M2"))));
        var a := InsertProduct(phone.value);
        var b := InsertProduct(computer.value);
        assert a != b;
        assert products == map[a := SeedPhone(), b := SeedComputer()];
        assert products.Keys == {a, b} && |products.Keys| == 2;
      }
    }
  }

  /** The two demo rows the seeding writes. */
  function SeedPhone(): (p: Product)
    ensures p.Phone? && p.name == "iPhone 15" && p.price == 35000 && p.simCount == Some(2)
  {
    WithColumnDefaults(CreateProduct(PhoneTag, "iPhone 15", 35000, Kwargs(Passed(Some(2)), Absent)).value)
  }

  function SeedComputer(): (p: Product)
    ensures p.Computer? && p.name == "MacBook Air" && p.price == 50000 && p.cpu == Some("M2")
  {
    WithColumnDefaults(CreateProduct(ComputerTag, "MacBook Air", 50000, Kwargs(Absent, Passed(Some("M2")))).value)
  }

  /** Seeding is idempotent: on a fresh store, seeding twice leaves the same
      catalogue as seeding once. */
  method SeedTwiceScenario() returns (once: map<nat, Product>, twice: map<nat, Product>)
    ensures once == twice
    ensures |once| == 2 && once.Values == {SeedPhone(), SeedComputer()}
  {
    var db := new Database();
    db.SeedProducts();
    once := db.products;
    db.SeedProducts();
    twice := db.products;
  }

  /** Registering a second user under an existing email fails and leaves the
      user table as it was. */
  method DuplicateUserScenario(email: string) returns (second: Result<User, StoreError>, before: map<string, User>, after: map<string, User>)
    ensures second == Err(IntegrityError)
    ensures after == before && email in after && after[email].password == "1" && after[email].name == "A"
  {
    var db := new Database();
    var first := db.InsertUser(email, "1", "A");
    before := db.users;
    second := db.InsertUser(email, "2", "B");
    after := db.users;
  }
}

=== FILE: utils.dfy ===
/** The pattern utilities: a per-class instance registry (the singleton
    metaclass), the process-wide logger, order observers and the order
    subject that notifies them. Standard output is an appended list of lines. */
module Utils {
  import opened Basics

  /** Standard output as the pattern layer writes to it: the lines it has
      printed so far, oldest first. */
  class Stdout {
    var lines: seq<string>

    constructor ()
      ensures lines == []
    {
      lines := [];
    }
  }

  const LogPrefix := "[LOG] "

  /** The line `Logger.log(message)` prints. */
  function LogLine(message: string): (line: string)
    ensures |line| == |LogPrefix| + |message|
    ensures line[..|LogPrefix|] == LogPrefix && line[|LogPrefix|..] == message
  {
    LogPrefix + message
  }

  /** A log line tells its message apart: the output determines what was logged. */
  lemma LogLineInjective(a: string, b: string)
    ensures LogLine(a) == LogLine(b) <==> a == b
  {
  }

  class Logger {
    constructor ()
    {
    }

    method Log(out: Stdout, message: string)
      modifies out
      ensures out.lines == old(out.lines) + [LogLine(message)]
    {
      out.lines := out.lines + [LogLine(message)];
    }
  }

  /** The name under which the registry keeps the logger's instance. */
  const LoggerClass := "Logger"

  /** The registry behind the singleton metaclass: one instance per class,
      created by the first call and handed back by every later one. */
  class SingletonType {
    var instances: map<string, Logger>

    constructor ()
      ensures instances == map[]
    {
      instances := map[];
    }

    method Call(cls: string) returns (instance: Logger)
      modifies this
      ensures cls in old(instances) ==> instance == old(instances)[cls] && instances == old(instances)
      ensures cls !in old(instances) ==> fresh(instance) && instances == old(instances)[cls := instance]
    {
      if cls !in instances {
        var created := new Logger();
        instances := instances[cls := created];
      }
      instance := instances[cls];
    }
  }

  /** The registry after looking up the logger: as it was, or, on the very
      first lookup, with the logger's instance added and nothing else. */
  ghost predicate LoggerLookedUp(before: map<string, Logger>, after: map<string, Logger>)
  {
    || after == before
    || (LoggerClass !in before && LoggerClass in after && after == before[LoggerClass := after[LoggerClass]])
  }

  /** `Plain` is the base observer (or a subclass that does not override
      `update`); `Email` and `Sms` are the two notifiers. */
  datatype ObserverKind = Plain | Email | Sms

  /** What `update` reads of the order it is given. */
  datatype OrderEvent = OrderEvent(id: Option<nat>, status: string)

  const EmailHead := "Email: Статус замовлення "
  const SmsHead := "SMS: Статус замовлення "
  const StatusJoin := " змінено на "

  /** The message a notifier of kind `kind` logs for `order`. */
  function Message(kind: ObserverKind, order: OrderEvent): (m: string)
    requires kind != Plain
    ensures var head := if kind == Email then EmailHead else SmsHead;
      var id := ShowId(order.id);
      && |m| == |head| + |id| + |StatusJoin| + |order.status|
      && m[..|head|] == head
      && m[|head|..|head| + |id|] == id
      && m[|head| + |id|..|m| - |order.status|] == StatusJoin
      && m[|m| - |order.status|..] == order.status
  {
    (if kind == Email then EmailHead else SmsHead) + ShowId(order.id) + StatusJoin + order.status
  }

  /** No blank inside an id's text: it is "None" or a run of digits. */
  predicate Unspaced(t: string) {
    forall i :: 0 <= i < |t| ==> t[i] != ' '
  }

  /** The position of the first blank in `s`. */
  function FirstBlank(s: string): (i: nat)
    requires exists k :: 0 <= k < |s| && s[k] == ' '
    ensures i < |s| && s[i] == ' ' && Unspaced(s[..i])
  {
    if s[0] == ' ' then 0
    else
      var rest := s[1..];
      assert exists k :: 0 <= k < |rest| && rest[k] == ' ' by {
        var k :| 0 <= k < |s| && s[k] == ' ';
        assert rest[k - 1] == ' ';
      }
      var j := FirstBlank(rest);
      assert s[..j + 1] == [s[0]] + rest[..j];
      1 + j
  }

  /** A text without blanks followed by something that starts with a blank:
      the first blank is where the text ends. */
  lemma {:induction false} FirstBlankAfter(t: string, r: string)
    requires Unspaced(t) && |r| > 0 && r[0] == ' '
    ensures (t + r)[|t|] == ' '
    ensures FirstBlank(t + r) == |t|
    decreases |t|
  {
    assert (t + r)[|t|] == ' ';
    if |t| > 0 {
      assert (t + r)[1..] == t[1..] + r;
      FirstBlankAfter(t[1..], r);
    }
  }

  /** Two lines made of one head, a text without blanks and a tail starting
      with a blank agree on that text when they agree at all. */
  lemma {:induction false} SameHeadSameText(head: string, t1: string, r1: string, t2: string, r2: string)
    requires Unspaced(t1) && |r1| > 0 && r1[0] == ' '
    requires Unspaced(t2) && |r2| > 0 && r2[0] == ' '
    ensures head + t1 + r1 == head + t2 + r2 ==> t1 == t2
  {
    if head + t1 + r1 == head + t2 + r2 {
      assert t1 + r1 == (head + t1 + r1)[|head|..];
      assert t2 + r2 == (head + t2 + r2)[|head|..];
      FirstBlankAfter(t1, r1);
      FirstBlankAfter(t2, r2);
      assert t1 == (t1 + r1)[..|t1|];
      assert t2 == (t2 + r2)[..|t2|];
    }
  }

  /** An id's text has no blank, and different ids have different texts. */
  lemma ShowIdUnspacedInjective(a: Option<nat>, b: Option<nat>)
    ensures Unspaced(ShowId(a))
    ensures ShowId(a) == ShowId(b) ==> a == b
  {
    if ShowId(a) == ShowId(b) && a.Some? && b.Some? {
      assert ReadNat(ShowId(a)) == ReadNat(ShowId(b));
    }
  }

  /** A notifier's message names its order: two orders whose messages from
      the same notifier agree have the same id, whatever their statuses. */
  lemma MessageIdentifiesOrder(kind: ObserverKind, a: OrderEvent, b: OrderEvent)
    requires kind != Plain
    ensures Message(kind, a) == Message(kind, b) ==> a.id == b.id
  {
    var head := if kind == Email then EmailHead else SmsHead;
    var ra, rb := StatusJoin + a.status, StatusJoin + b.status;
    assert ra[0] == ' ' && rb[0] == ' ';
    assert Message(kind, a) == head + ShowId(a.id) + ra;
    assert Message(kind, b) == head + ShowId(b.id) + rb;
    ShowIdUnspacedInjective(a.id, b.id);
    ShowIdUnspacedInjective(b.id, a.id);
    SameHeadSameText(head, ShowId(a.id), ra, ShowId(b.id), rb);
  }

  /** The lines printed when an observer of kind `kind` is updated: none for
      the plain observer, one log line for each notifier. */
  function UpdateLines(kind: ObserverKind, order: OrderEvent): (lines: seq<string>)
    ensures kind == Plain <==> lines == []
    ensures kind != Plain ==> |lines| == 1
  {
    if kind == Plain then [] else [LogLine(Message(kind, order))]
  }

  /** An order observer; observers are compared by identity. */
  class Observer {
    const kind: ObserverKind

    constructor (kind: ObserverKind)
      ensures this.kind == kind
    {
      this.kind := kind;
    }

    /** Log this observer's messages, each through the process-wide logger. */
    method Update(order: OrderEvent, registry: SingletonType, out: Stdout)
      modifies registry, out
      ensures out.lines == old(out.lines) + UpdateLines(kind, order)
      ensures LoggerLookedUp(old(registry.instances), registry.instances)
      ensures kind != Plain ==> LoggerClass in registry.instances
    {
      if kind != Plain {
        var logger := registry.Call(LoggerClass);
        logger.Log(out, Message(kind, order));
      }
    }
  }

  /** The lines `notify` prints for a list of observers, in list order. */
  function NotifyLines(observers: seq<Observer>, order: OrderEvent): (lines: seq<string>)
  {
    if observers == [] then []
    else (NotifyLines(observers[..|observers| - 1], order) + UpdateLines(observers[|observers| - 1].kind, order))
  }

  lemma {:induction false} NotifyLinesAppend(s: seq<Observer>, t: seq<Observer>, order: OrderEvent)
    ensures NotifyLines(s + t, order) == NotifyLines(s, order) + NotifyLines(t, order)
    decreases |t|
  {
    if t == [] {
      assert s + t == s;
    } else {
      var t' := t[..|t| - 1];
      assert (s + t)[..|s + t| - 1] == s + t';
      NotifyLinesAppend(s, t', order);
    }
  }

  /** Notifying prints nothing exactly when every observer is a plain one. */
  lemma {:induction false} NotifyLinesEmpty(observers: seq<Observer>, order: OrderEvent)
    ensures NotifyLines(observers, order) == [] <==> forall i :: 0 <= i < |observers| ==> observers[i].kind == Plain
    decreases |observers|
  {
    if observers != [] {
      NotifyLinesEmpty(observers[..|observers| - 1], order);
    }
  }

  /** The first position of `x` in `s`. */
  function IndexOf<T(==)>(s: seq<T>, x: T): (i: nat)
    requires x in s
    ensures i < |s| && s[i] == x && x !in s[..i]
  {
    if s[0] == x then 0 else 1 + IndexOf(s[1..], x)
  }

  /** `s` without the first occurrence of `x`, as `list.remove` leaves it. */
  function RemoveFirst<T(==)>(s: seq<T>, x: T): (r: seq<T>)
    requires x in s
    ensures r == s[..IndexOf(s, x)] + s[IndexOf(s, x) + 1..]
  {
    if s[0] == x then s[1..]
    else
      var j := IndexOf(s[1..], x);
      assert s[..j + 1] == [s[0]] + s[1..][..j];
      assert s[j + 2..] == s[1..][j + 1..];
      [s[0]] + RemoveFirst(s[1..], x)
  }

  /** Removing one occurrence takes exactly one copy of `x` out of the list:
      further duplicates stay attached. */
  lemma RemoveFirstMultiset<T>(s: seq<T>, x: T)
    requires x in s
    ensures multiset(RemoveFirst(s, x)) == multiset(s) - multiset{x}
  {
    var i := IndexOf(s, x);
    assert s == s[..i] + [x] + s[i + 1..];
  }

  /** Detaching an observer just attached to a list that did not hold it
      gives the list back. */
  lemma AttachThenDetach<T>(s: seq<T>, x: T)
    requires x !in s
    ensures RemoveFirst(s + [x], x) == s
  {
  }

  /** Detaching removes exactly the detached observer's lines from what a
      later notification prints; the others keep their order. */
  lemma DetachDropsItsLines(observers: seq<Observer>, o: Observer, order: OrderEvent)
    requires o in observers
    ensures var i := IndexOf(observers, o);
      && NotifyLines(observers, order)
         == NotifyLines(observers[..i], order) + UpdateLines(o.kind, order) + NotifyLines(observers[i + 1..], order)
      && NotifyLines(RemoveFirst(observers, o), order)
         == NotifyLines(observers[..i], order) + NotifyLines(observers[i + 1..], order)
  {
    var i := IndexOf(observers, o);
    var pre, post := observers[..i], observers[i + 1..];
    assert observers == pre + [o] + post;
    NotifyLinesAppend(pre + [o], post, order);
    NotifyLinesAppend(pre, [o], order);
    assert NotifyLines([o], order) == UpdateLines(o.kind, order) by {
      assert [o][..0] == [];
    }
    NotifyLinesAppend(pre, post, order);
  }

  datatype SubjectError = NotAttached  // ValueError from list.remove

  /** The order subject: an ordered list of observers, duplicates allowed. */
  class OrderSubject {
    var observers: seq<Observer>

    constructor ()
      ensures observers == []
    {
      observers := [];
    }

    method Attach(observer: Observer)
      modifies this
      ensures observers == old(observers) + [observer]
    {
      observers := observers + [observer];
    }

    /** Remove the first occurrence; an observer that is not attached raises. */
    method Detach(observer: Observer) returns (r: Outcome<SubjectError>)
      modifies this
      ensures observer in old(observers) ==> r == Pass && observers == RemoveFirst(old(observers), observer)
      ensures observer !in old(observers) ==> r == Fail(NotAttached) && observers == old(observers)
    {
      if observer !in observers {
        return Fail(NotAttached);
      }
      observers := RemoveFirst(observers, observer);
      r := Pass;
    }

    /** Call `update` on every observer, in attachment order. */
    method Notify(order: OrderEvent, registry: SingletonType, out: Stdout)
      modifies registry, out
      ensures out.lines == old(out.lines) + NotifyLines(observers, order)
      ensures LoggerLookedUp(old(registry.instances), registry.instances)
    {
      for i := 0 to |observers|
        invariant out.lines == old(out.lines) + NotifyLines(observers[..i], order)
        invariant LoggerLookedUp(old(registry.instances), registry.instances)
      {
        observers[i].Update(order, registry, out);
        assert observers[..i + 1][..i] == observers[..i];
      }
      assert observers[..|observers|] == observers;
    }
  }

  /** A fresh registry asked twice for the logger returns one instance, and
      holds exactly that entry. */
  method LoggerIdentityScenario() returns (first: Logger, second: Logger, registry: map<string, Logger>)
    ensures first == second
    ensures registry == map[LoggerClass := first]
  {
    var types := new SingletonType();
    first := types.Call(LoggerClass);
    second := types.Call(LoggerClass);
    registry := types.instances;
  }

  /** Two successive log calls print their lines in call order. */
  method LogOrderScenario(a: string, b: string) returns (lines: seq<string>)
    ensures lines == [LogLine(a), LogLine(b)]
  {
    var out := new Stdout();
    var registry := new SingletonType();
    var logger := registry.Call(LoggerClass);
    logger.Log(out, a);
    logger.Log(out, b);
    lines := out.lines;
  }

  /** An email notifier attached before an SMS notifier logs its line first. */
  method NotifyOrderScenario(order: OrderEvent) returns (lines: seq<string>)
    ensures lines == [LogLine(Message(Email, order)), LogLine(Message(Sms, order))]
  {
    var out := new Stdout();
    var registry := new SingletonType();
    var subject := new OrderSubject();
    var email := new Observer(Email);
    var sms := new Observer(Sms);
    subject.Attach(email);
    subject.Attach(sms);
    assert subject.observers == [email, sms];
    assert [email, sms][..1] == [email] && [email][..0] == [];
    assert NotifyLines([email], order) == UpdateLines(Email, order);
    assert NotifyLines([email, sms], order) == UpdateLines(Email, order) + UpdateLines(Sms, order);
    subject.Notify(order, registry, out);
    lines := out.lines;
  }

  /** Attach, notify, detach, notify: the email line is printed exactly once. */
  method DetachScenario(order: OrderEvent) returns (lines: seq<string>, detached: Outcome<SubjectError>)
    ensures detached == Pass
    ensures lines == [LogLine(Message(Email, order))]
  {
    var out := new Stdout();
    var registry := new SingletonType();
    var subject := new OrderSubject();
    var email := new Observer(Email);
    subject.Attach(email);
    subject.Notify(order, registry, out);
    assert [email][..0] == [];
    assert out.lines == [LogLine(Message(Email, order))];
    detached := subject.Detach(email);
    assert subject.observers == [];
    subject.Notify(order, registry, out);
    lines := out.lines;
  }

  /** Notifying with no observers, or only plain ones, prints nothing. */
  method SilentNotifyScenario(order: OrderEvent, plainCount: nat) returns (lines: seq<string>)
    ensures lines == []
  {
    var subject := new OrderSubject();
    for i := 0 to plainCount
      invariant forall j :: 0 <= j < |subject.observers| ==> subject.observers[j].kind == Plain
    {
      var plain := new Observer(Plain);
      subject.Attach(plain);
    }
    var out := new Stdout();
    var registry := new SingletonType();
    subject.Notify(order, registry, out);
    NotifyLinesEmpty(subject.observers, order);
    lines := out.lines;
  }
}
